=== FILE: README.md ===
# Inventory API core, modelled in Dafny

This project models the logic of a small inventory-management REST API: user
registration and login with bearer tokens, and CRUD over "equipment" records
with filtered, paginated listing and role-gated routes. It covers four parts
of the code:

- **Token helper** (`JWTHelper`, module `Jwt`, with `Text` for JavaScript's
  `split`/`join`). It shapes the token claims from a public user view, signs
  and verifies through the `jsonwebtoken` library, and parses the
  `Authorization: Bearer <token>` header. The header parser departs from the
  Bearer scheme of section 2.1 of RFC 6750 in both directions. It is stricter:
  it accepts exactly one space, and `Bearer` only with that capitalisation. It
  is also looser: it accepts `"Bearer "` with an empty token, and any token
  without a space, including characters outside the RFC's `b64token`.
- **Equipment service** (`EquipmentService`). The collection is the `table`
  field of class `EquipmentTable`, a map from document id to document. Create,
  update and delete are methods that change it. Lookup, listing and "assigned
  to me" are functions that read it.
- **Authentication service** (`AuthService`). The user collection is class
  `UserTable`: a map from id to user plus the unique email index. Register is
  a method. Login and profile lookup are functions over the table, so they
  cannot change it. Login gives an unknown email and a wrong password the
  same error (`UnknownEmailLooksLikeWrongPassword`), but it refuses an
  inactive account with its own message whatever the password
  (`DeactivationCheckedFirst`), so a caller can still tell a registered but
  deactivated email from an unregistered one.
- **Equipment router** (`EquipmentRoutes`). A pure function takes a request
  to its outcome. Authentication comes first, then the admin check on
  mutating routes, then validation, then the handler.

Shared types live in `Outcomes` (option, result, and the exact error
messages) and `UserTypes` (role, public user view).

Calls into code that is not part of this model are function-valued parameters:
`jsonwebtoken`'s sign/verify/decode (`Jwt.JwtLibrary`), bcrypt's hash/compare
(`AuthService.PasswordHasher`), the database's case-insensitive brand regex
(`brandMatches`), and the `authenticateToken`, `requireAdmin` and `isMongoId`
checks (`EquipmentRoutes.Checks`). The clock (`now`), the bcrypt salt and the
fresh document id the database assigns are parameters too. A "thrown `Error`"
is an `Err` result whose `Outcomes.Error` carries the exact message text.

## Model

| member | source | states |
|---|---|---|
| `Text.SplitShape` | src/utils/jwt.ts:60 | `split(' ')` yields one more piece than there are spaces, and no piece contains a space |
| `Text.JoinSplit` | src/utils/jwt.ts:60 | joining the pieces of `split(' ')` with a space restores the header |
| `Text.SplitJoin` | src/utils/jwt.ts:60 | splitting a join of space-free pieces gives back those pieces |
| `Jwt.Secret` | src/utils/jwt.ts:6 | the secret is never empty: a set, non-empty variable is used as is, otherwise `fallback_secret` |
| `Jwt.GenerateToken` | src/utils/jwt.ts:35-40 | under the library's sign/verify law, the issued token verifies with the configured secret to exactly the payload of the view |
| `Jwt.ExtractToken` | src/utils/jwt.ts:55-66 | whatever token is returned, the header was `"Bearer "` followed by it, and it holds no space |
| `Jwt.ExtractTokenExact` | src/utils/jwt.ts:55-66 | `extractToken(h)` is `t` exactly when `h == "Bearer " + t` and `t` has no space |
| `Jwt.ExtractTokenAbsent` | src/utils/jwt.ts:56-58 | an absent or empty header yields null |
| `Jwt.ExtractTokenRoundTrip` | src/utils/jwt.ts:60-62 | `"Bearer " + t` with a space-free `t` yields `t`; `"Bearer "` alone yields `""`, not null |
| `Jwt.ExtractTokenCaseSensitive` | src/utils/jwt.ts:61 | `bearer` and `BEARER` schemes yield null whatever follows |
| `Jwt.ExtractTokenOneSpaceOnly` | src/utils/jwt.ts:60-61 | any header whose space count is not exactly one yields null, e.g. `"Bearer  x"` and `"Bearer a b"` |
| `Jwt.JwtPayload` | src/utils/jwt.ts:11-23 | the claims carry the view's id, email, role and name |
| `Jwt.PayloadIsIdentityProjection` | src/utils/jwt.ts:11-23 | the payload holds the view's id, email, role and name, and depends on nothing else |
| `Jwt.VerifyToken` | src/utils/jwt.ts:42-48 | success exactly when the library verifies, with its claims; every failure is `Token inválido o expirado` |
| `Jwt.VerifyFailuresIndistinguishable` | src/utils/jwt.ts:42-48 | tokens rejected for any two causes (signature, expiry, ...) give the identical error |
| `Jwt.IssuedTokenVerifies` | src/utils/jwt.ts:35-48 | for a library that verifies what it signs, a token from `generateToken` passes `verifyToken` with the user's payload: the payload and secret of signing and verifying agree |
| `EquipmentService.ToEquipmentObject` | src/services/equipment.service.ts:8-22 | every field is copied: name, type, brand, model, serial number, status, specifications and timestamps unchanged; the id and `assignedTo` (present exactly when the document has one) become their text |
| `EquipmentService.ToEquipmentObjectInjective` | src/services/equipment.service.ts:8-22 | the returned object keeps every field: distinct documents give distinct objects |
| `EquipmentService.BuildQuery` | src/services/equipment.service.ts:32-36 | a type/status/brand condition is present exactly when its filter value is truthy, and carries that value |
| `EquipmentService.NoFiltersMatchEverything` | src/services/equipment.service.ts:32-36 | with no filter values, or only empty ones, every record matches |
| `EquipmentService.TypeAndStatusFiltersAreExact` | src/services/equipment.service.ts:33-34 | a type or status filter keeps exactly the records with that value |
| `EquipmentService.Listing` | src/services/equipment.service.ts:38-42 | the sorted result set holds each matching document once, newest `createdAt` first |
| `EquipmentService.ViewsPreserve` | src/services/equipment.service.ts:48 | mapping documents to returned objects keeps them distinct, all present and in order |
| `EquipmentService.Skip` | src/services/equipment.service.ts:30 | page 1 starts at offset 0, and each page starts where the previous one ends (`skip + limit == page * limit`) |
| `EquipmentService.CeilDiv` | src/services/equipment.service.ts:54 | `totalPages` is the least `n` with `n * limit >= total` |
| `EquipmentService.SkipIsPageOffset` | src/services/equipment.service.ts:30 | `skip` is a whole number of pages: a multiple of `limit`, and `skip / limit == page - 1` |
| `EquipmentService.CeilDivExamples` | src/services/equipment.service.ts:54 | 25 records at 10 per page give 3 pages; 0 records give 0 pages |
| `EquipmentService.EveryPositionOnOnePage` | src/services/equipment.service.ts:30 | each match position `i` lies on exactly one page, `i / limit + 1`, within `1..totalPages` |
| `EquipmentService.PageOf` | src/services/equipment.service.ts:42-43 | skip-then-limit is the clipped slice `[skip, skip+limit)`, with its exact length |
| `EquipmentService.EquipmentTable.GetAllEquipment` | src/services/equipment.service.ts:25-56 | page items are positions `skip..` of the sorted matches, at most `limit` of them, newest first; `total` counts all matches; `totalPages` is the ceiling |
| `EquipmentService.EquipmentTable.PageItemsMatch` | src/services/equipment.service.ts:33-43 | every item on a page is a stored record satisfying the filters |
| `EquipmentService.EquipmentTable.EveryMatchIsOnItsPage` | src/services/equipment.service.ts:38-54 | within one listing order, the match at position `skip + offset` is item `offset` of that page, and the page is within `totalPages` |
| `EquipmentService.EquipmentTable.DefaultListing` | src/services/equipment.service.ts:25-28 | with the default page 1, limit 10 and no filters, `total` is the number of stored records (`|table|`) and the page holds the first ten, or all if fewer |
| `EquipmentService.EquipmentTable.TotalIndependentOfPage` | src/services/equipment.service.ts:45-54 | `total` and `totalPages` do not depend on the page requested |
| `EquipmentService.EquipmentTable.GetEquipmentById` | src/services/equipment.service.ts:58-64 | the stored record with that id, or `Equipo no encontrado` exactly when the id is absent |
| `EquipmentService.EquipmentTable.GetEquipmentByUser` | src/services/equipment.service.ts:103-109 | every returned item is a stored record assigned to the user, and every such record is returned, each once, newest first |
| `EquipmentService.EquipmentTable.CreateEquipment` | src/services/equipment.service.ts:68-79 | taken serial: `El número de serie ya está registrado` and no change; otherwise exactly one record added, others untouched, then retrievable by id; serial uniqueness preserved |
| `EquipmentService.EquipmentTable.UpdateEquipment` | src/services/equipment.service.ts:82-94 | absent id: `Equipo no encontrado` and no change; otherwise only that record is replaced by the merge, with `updatedAt` set; serials stay unique when the new serial belongs to no other record |
| `EquipmentService.EquipmentTable.DeleteEquipment` | src/services/equipment.service.ts:96-101 | absent id: `Equipo no encontrado` and no change; otherwise exactly that id is removed |
| `EquipmentService.Merge` | src/services/equipment.service.ts:85 | the merged document keeps the id and `createdAt`, and its `updatedAt` is the current time |
| `EquipmentService.MergeLaws` | src/services/equipment.service.ts:85 | the merge keeps id and `createdAt`, sets `updatedAt`; an empty update only refreshes `updatedAt`; merging twice equals merging once |
| `EquipmentService.MergeTakesSuppliedFields` | src/services/equipment.service.ts:85 | for each of the eight updatable fields, a supplied value replaces the stored one and an absent field keeps the stored value |
| `AuthService.ToUserResponse` | src/services/auth.service.ts:11-20 | the view carries the user's id, name, email, role, active flag and creation time, and has no password field |
| `AuthService.ToUserResponseHidesPassword` | src/services/auth.service.ts:11-20 | the user view ignores the password and keeps every other field |
| `AuthService.UserTable.EmailsUnique` | src/services/auth.service.ts:26-29 | no two stored users share an email |
| `AuthService.UserTable.IndexIsExact` | src/services/auth.service.ts:26 | the email lookup finds a user exactly when one with that email is stored |
| `AuthService.UserTable.Register` | src/services/auth.service.ts:24-45 | taken email: `El email ya está registrado` and no user added; otherwise one user with the hashed password, the given or default role, and active; the token is issued from the returned view; login then succeeds exactly for passwords that match the hash |
| `AuthService.UserTable.Login` | src/services/auth.service.ts:49-69 | success exactly when the email exists, the account is active and the password compares; deactivated gives `La cuenta está desactivada`; token issued from the returned view |
| `AuthService.UserTable.UnknownEmailLooksLikeWrongPassword` | src/services/auth.service.ts:51-63 | an unknown email and a wrong password give the identical `Credenciales inválidas` |
| `AuthService.UserTable.DeactivationCheckedFirst` | src/services/auth.service.ts:56-62 | an inactive account is refused as deactivated whatever the password |
| `AuthService.UserTable.GetProfile` | src/services/auth.service.ts:73-80 | the view of that user, or `Usuario no encontrado` exactly when the id is absent |
| `EquipmentRoutes.CreateErrors` | src/routes/equipment.routes.ts:17-36 | no error exactly for an acceptable body; each field's own message is present exactly when that field fails; there are exactly as many messages as failing fields, so none repeats |
| `EquipmentRoutes.NoFiftyCharacterLimit` | src/routes/equipment.routes.ts:24-29 | brand and model of any non-empty length pass, despite the 50-character messages |
| `EquipmentRoutes.WithValidId` | src/routes/equipment.routes.ts:11-15 | a valid id goes on to the handler with that id; an invalid one stops with the single message `ID inválido` (400) |
| `EquipmentRoutes.Dispatch` | src/routes/equipment.routes.ts:39-49 | 401 exactly when authentication fails; mutating handlers only for admins; a handler with an id only for an id passing `isMongoId`; create only with a valid body; 403 only on POST/PUT/DELETE |
| `EquipmentRoutes.NonAdminCannotMutate` | src/routes/equipment.routes.ts:47-49 | an authenticated non-admin on POST `/`, PUT `/:id` or DELETE `/:id` gets 403, whatever the body or id |
| `EquipmentRoutes.ReadsNeedNoAdmin` | src/routes/equipment.routes.ts:42-44 | GET routes never give 403; GET `/` reaches the list handler |
| `EquipmentRoutes.MyEquipmentIsNotAnId` | src/routes/equipment.routes.ts:43-44 | GET `/my-equipment` reaches `getMyEquipment`, never the by-id handler |
| `EquipmentRoutes.InvalidIdRejected` | src/routes/equipment.routes.ts:11-15 | on the id routes, an id failing `isMongoId` gives `ID inválido` (400) before the handler; for PUT and DELETE this includes `my-equipment` |
| `EquipmentRoutes.AdminCreateAdmission` | src/routes/equipment.routes.ts:47 | an admin's POST `/` reaches `createEquipment` exactly when the body is valid; otherwise 400 with the validators' messages |
| `EquipmentRoutes.IdRouteAdmission` | src/routes/equipment.routes.ts:44-49 | an authenticated request on GET, PUT or DELETE `/:id` with an id passing `isMongoId`, by an admin for PUT and DELETE, reaches `getEquipmentById`, `updateEquipment` or `deleteEquipment` with that id |

## Left out

- Cryptography: `jsonwebtoken` signing and verifying and bcrypt hashing are opaque parameters, with no claim about their strength. The library is assumed to verify what it signs: a token signed with a secret verifies, under that secret, to exactly the claims signed (`Jwt.SignVerifyLaw`, the precondition of `Jwt.IssuedTokenVerifies`).
- Token expiry is not modelled. No clock is a parameter of `verify`, so the `24h` lifetime (`Jwt.ExpiresIn`) is passed to `sign` and has no effect on anything proved: `Jwt.SignVerifyLaw` describes verification within the token's lifetime, and under it an issued token verifies whatever lifetime it was signed with. The law covers only the four identity claims; the `iat` and `exp` fields that `jwt.verify` adds to the object it returns are not modelled.
- `decodeToken` is passed straight through to the library, without verification, and has no logic of its own; it is not modelled.
- `process.env.JWT_SECRET` is an optional parameter, with the `'fallback_secret'` default when it is unset or empty. Environment loading, the database connection (`src/db/db.ts`) and the server start (`src/index.ts`) are process I/O.
- Mongoose specifics are left out: `populate` joins, `runValidators`, and unique-index enforcement on update. With `populate`, `assignedTo?.toString()` stringifies the joined user sub-document, whereas the model keeps the referenced id. Since unique indexes are not modelled, `UpdateEquipment` promises serial uniqueness only when the new serial is free.
- The brand filter's case-insensitive `$regex` is the abstract `brandMatches`, which is total. In the source, a brand that is not a valid regular expression, such as `"("`, makes the query throw.
- EquipmentService.EquipmentTable.GetAllEquipment requires `page >= 1` and `limit >= 1`: `getAllEquipment` with `page < 1` or `limit < 1` is not modelled. MongoDB rejects a negative skip, and it treats limit 0 as "no limit" and a negative limit `-n` as a single batch of `n`. `Math.ceil(total / 0)` is `Infinity`, or `NaN` when `total` is 0. `Math.ceil` on the floating-point quotient becomes integer ceiling division.
- Among records with equal `createdAt`, the database's order is unspecified. The model fixes some order and promises nothing about it.
- EquipmentService.EquipmentTable.EveryMatchIsOnItsPage and `EveryPositionOnOnePage` rely on one listing order shared by every call. In the source, each page is a separate `find().sort().skip().limit()` query, and the database need not keep records with equal `createdAt` in the same order from one query to the next. Such records can therefore repeat across pages or be missing from all of them. The cross-page claims hold only for records whose `createdAt` differs from every other match's.
- Schema defaults are assumed: role `user`, `isActive` true, `createdAt`/`updatedAt` set to the creation time. The user and equipment schemas are not part of this model. Email matching is exact: any lower-casing the user schema may do is not part of this model.
- EquipmentService.EquipmentTable.GetEquipmentById looks its id up as the text it is, without Mongoose's cast of the string to an ObjectId. The same holds for four other members, listed below. There are two kinds of id this matters for: one that does not cast (such as `"abc"`), and an upper-case hexadecimal form of a stored id. For `GetEquipmentById`, the first kind gives `Equipo no encontrado` here, where the source throws a CastError; the second gives `Equipo no encontrado` here, where the source returns the record with its lower-case id.
- EquipmentService.EquipmentTable.UpdateEquipment: an id that does not cast gives `Equipo no encontrado` and no change here, where the source throws a CastError; an upper-case form of a stored id gives `Equipo no encontrado` and no change here, where the source updates the record and returns it.
- EquipmentService.EquipmentTable.DeleteEquipment: an id that does not cast gives `Equipo no encontrado` here, where the source throws a CastError; an upper-case form of a stored id gives `Equipo no encontrado` and no change here, where the source deletes the record and returns nothing.
- EquipmentService.EquipmentTable.GetEquipmentByUser has no error path: a user id that does not cast gives `[]` here, where the source's query throws a CastError; an upper-case form of a user's id gives `[]` here, where the source returns that user's records.
- AuthService.UserTable.GetProfile: an id that does not cast gives `Usuario no encontrado` here, where the source throws a CastError; an upper-case form of a stored id gives `Usuario no encontrado` here, where the source returns that user's profile.
- On the routes, `isMongoId` rejects ids that do not cast before `getEquipmentById`, `updateEquipment` or `deleteEquipment` is called; validator's `isMongoId` accepts 24 hexadecimal digits in either case. The ids passed to `getEquipmentByUser` and `getProfile` come from the token and are not validated on these routes.
- The fresh ObjectId the database assigns is a parameter that must not already be in use (`requires newId !in ...`).
- Check-then-insert on email and on serial number is not atomic in the source: two concurrent requests can both pass the check. The model is sequential and cannot show this race.
- Controllers and the `authenticateToken`/`requireAdmin` middlewares are not part of this model. They are abstract `Checks`, and a handler is only named in the outcome.
- Express routing details are not modelled: case-insensitive paths, trailing slashes, `HEAD` served by `GET` routes, and URI-decoding of `:id`. Body values are text: validators see a missing field as `""`. Non-string JSON values are not modelled.
- The validators' `isLength` is taken as the number of characters of the string: how the validator library counts astral characters and combining marks is not part of this model.
- `handleValidationErrors` (`src/middlewares/validate.middleware.ts`) is folded into the `ValidationFailed` outcome: any error gives 400, else the request goes on.

=== FILE: auth_service.dfy ===
/**
 * The authentication service (`AuthService`): registration, login and the
 * profile lookup, over the user collection.
 *
 * The collection is held by `UserTable` as a map from id to stored user,
 * together with the unique index from email to id that the database keeps.
 * Password hashing (bcrypt, with its random salt) and comparison are opaque
 * function values handed in as a `PasswordHasher`; the salt is a parameter.
 */
module AuthService {
  import opened Outcomes
  import opened UserTypes
  import Jwt

  /** A stored user; `password` holds the hash, never the plaintext. */
  datatype UserDoc = UserDoc(
    id: string,
    name: string,
    email: string,
    password: string,
    role: Role,
    isActive: bool,
    createdAt: nat)

  /** Registration input (`IUserCreate`); an absent role takes the default. */
  datatype UserCreate = UserCreate(name: string, email: string, password: string, role: Option<Role>)

  /** Login input (`IUserLogin`). */
  datatype UserLogin = UserLogin(email: string, password: string)

  /** What register and login return: the public view and a token issued from it. */
  datatype AuthResult = AuthResult(user: UserView, token: string)

  /** `PasswordHelper`: `hash(plaintext, salt)` and `compare(plaintext, hash)`. */
  datatype PasswordHasher = PasswordHasher(
    hash: (string, string) -> string,
    compare: (string, string) -> bool)

  /** The role a new user gets when none is given. */
  const DefaultRole: Role := User

  /** `toUserResponse`: every public field of the stored user, and not the password. */
  function ToUserResponse(u: UserDoc): (v: UserView)
    ensures v.id == u.id && v.name == u.name && v.email == u.email
    ensures v.role == u.role && v.isActive == u.isActive && v.createdAt == u.createdAt
  {
    UserView(u.id, u.name, u.email, u.role, u.isActive, u.createdAt)
  }

  /**
   * The view does not depend on the stored password at all, and keeps every
   * other field: two users have the same view exactly when they differ at
   * most in their password.
   */
  lemma ToUserResponseHidesPassword(u: UserDoc, v: UserDoc)
    ensures ToUserResponse(u) == ToUserResponse(v) <==> u.(password := v.password) == v
  {
  }

  /** The token handed out with a view is issued from that same view's identity. */
  predicate IssuedFor(r: AuthResult, lib: Jwt.JwtLibrary, env: Option<string>)
  {
    r.token == Jwt.GenerateToken(lib, env, r.user)
  }

  class UserTable {
    var byId: map<string, UserDoc>
    var byEmail: map<string, string>

    /** Each user is stored under its id, and the email index maps exactly the stored emails to their users. */
    ghost predicate Valid()
      reads this
    {
      && (forall id :: id in byId ==> byId[id].id == id && byId[id].email in byEmail && byEmail[byId[id].email] == id)
      && (forall e :: e in byEmail ==> byEmail[e] in byId && byId[byEmail[e]].email == e)
    }

    /** Some stored user has this email. */
    ghost predicate Registered(email: string)
      reads this
    {
      exists id :: id in byId && byId[id].email == email
    }

    constructor ()
      ensures Valid() && byId == map[] && byEmail == map[]
    {
      byId := map[];
      byEmail := map[];
    }

    /** The index makes emails unique: two distinct users never share one. */
    lemma EmailsUnique(id1: string, id2: string)
      requires Valid()
      requires id1 in byId && id2 in byId && id1 != id2
      ensures byId[id1].email != byId[id2].email
    {
      assert byEmail[byId[id1].email] == id1;
    }

    /** The index answers "is this email registered" exactly. */
    lemma IndexIsExact(email: string)
      requires Valid()
      ensures email in byEmail <==> Registered(email)
      ensures email in byEmail ==> forall id :: id in byId && byId[id].email == email ==> id == byEmail[email]
    {
      if email in byEmail {
        assert byId[byEmail[email]].email == email;
      }
    }

    /**
     * `login`: an unknown email or a wrong password give the same
     * `Credenciales inválidas`; an inactive account gives
     * `La cuenta está desactivada` before the password is looked at.
     */
    function Login(creds: UserLogin, hasher: PasswordHasher, lib: Jwt.JwtLibrary, env: Option<string>): (r: Result<AuthResult>)
      reads this
      requires Valid()
      ensures r.Ok? <==>
                exists id :: id in byId && byId[id].email == creds.email && byId[id].isActive &&
                             hasher.compare(creds.password, byId[id].password)
      ensures r.Ok? ==> r.value.user.email == creds.email && r.value.user.isActive && IssuedFor(r.value, lib, env)
      ensures r.Ok? ==> r.value.user.id in byId && r.value.user == ToUserResponse(byId[r.value.user.id])
      ensures r == Err(AccountDisabled) <==>
                exists id :: id in byId && byId[id].email == creds.email && !byId[id].isActive
      ensures r.Err? ==> r.error == InvalidCredentials || r.error == AccountDisabled
    {
      IndexIsExact(creds.email);
      if creds.email !in byEmail then Err(InvalidCredentials)
      else
        var u := byId[byEmail[creds.email]];
        if !u.isActive then Err(AccountDisabled)
        else if !hasher.compare(creds.password, u.password) then Err(InvalidCredentials)
        else
          var view := ToUserResponse(u);
          Ok(AuthResult(view, Jwt.GenerateToken(lib, env, view)))
    }

    /** An unknown email and a wrong password for an active account are indistinguishable to the caller. */
    lemma UnknownEmailLooksLikeWrongPassword(
      unknown: UserLogin, wrong: UserLogin, hasher: PasswordHasher, lib: Jwt.JwtLibrary, env: Option<string>)
      requires Valid()
      requires !Registered(unknown.email)
      requires wrong.email in byEmail && byId[byEmail[wrong.email]].isActive
      requires !hasher.compare(wrong.password, byId[byEmail[wrong.email]].password)
      ensures Login(unknown, hasher, lib, env) == Login(wrong, hasher, lib, env) == Err(InvalidCredentials)
    {
      IndexIsExact(unknown.email);
      IndexIsExact(wrong.email);
    }

    /** A deactivated account is refused as such whatever password is given, the right one included. */
    lemma DeactivationCheckedFirst(email: string, p1: string, p2: string, hasher: PasswordHasher, lib: Jwt.JwtLibrary, env: Option<string>)
      requires Valid()
      requires email in byEmail && !byId[byEmail[email]].isActive
      ensures Login(UserLogin(email, p1), hasher, lib, env) == Err(AccountDisabled)
      ensures Login(UserLogin(email, p1), hasher, lib, env) == Login(UserLogin(email, p2), hasher, lib, env)
    {
    }

    /** `getProfile`: the view of the user with this id, or `Usuario no encontrado`. */
    function GetProfile(userId: string): (r: Result<UserView>)
      reads this
      requires Valid()
      ensures r.Ok? <==> userId in byId
      ensures r.Ok? ==> r.value.id == userId && r.value == ToUserResponse(byId[userId])
      ensures r.Err? ==> r.error == UserNotFound
    {
      if userId in byId then Ok(ToUserResponse(byId[userId])) else Err(UserNotFound)
    }

    /**
     * `register`: a taken email gives `El email ya está registrado` and adds
     * nobody; otherwise exactly one user is added, under the fresh id the
     * database assigns, with the hash of the password, the given or default
     * role, active, and created now. The returned token is issued from the
     * returned view, and the new user can then log in exactly with passwords
     * that compare equal to the stored hash.
     */
    method Register(data: UserCreate, newId: string, now: nat, salt: string,
                    hasher: PasswordHasher, lib: Jwt.JwtLibrary, env: Option<string>)
      returns (r: Result<AuthResult>)
      requires Valid()
      requires newId !in byId
      modifies this
      ensures Valid()
      ensures old(Registered(data.email)) ==>
                r == Err(EmailTaken) && byId == old(byId) && byEmail == old(byEmail)
      ensures !old(Registered(data.email)) ==>
                var u := UserDoc(newId, data.name, data.email, hasher.hash(data.password, salt),
                                 if data.role.Some? then data.role.value else DefaultRole, true, now);
                && byId == old(byId)[newId := u]
                && byEmail == old(byEmail)[data.email := newId]
                && r == Ok(AuthResult(ToUserResponse(u), Jwt.GenerateToken(lib, env, ToUserResponse(u))))
      ensures r.Ok? ==> IssuedFor(r.value, lib, env) && GetProfile(newId) == Ok(r.value.user)
      ensures r.Ok? ==> forall p :: Login(UserLogin(data.email, p), hasher, lib, env).Ok? <==>
                                    hasher.compare(p, hasher.hash(data.password, salt))
    {
      IndexIsExact(data.email);
      if data.email in byEmail {
        return Err(EmailTaken);
      }
      var hashed := hasher.hash(data.password, salt);
      var u := UserDoc(newId, data.name, data.email, hashed,
                       if data.role.Some? then data.role.value else DefaultRole, true, now);
      byId := byId[newId := u];
      byEmail := byEmail[data.email := newId];
      var view := ToUserResponse(u);
      r := Ok(AuthResult(view, Jwt.GenerateToken(lib, env, view)));
      IndexIsExact(data.email);
    }
  }
}

=== FILE: equipment_routes.dfy ===
/**
 * The equipment router: which checks a request under `/api/equipment` passes
 * through, in which order, and which handler it reaches.
 *
 * Every request first goes through token authentication; the three mutating
 * routes then require the admin role; then the route's validators run and any
 * error stops the request with status 400; only then does the handler run.
 * Authentication, the admin check and the `isMongoId` validator are defined
 * outside this router (the auth middlewares and express-validator) and are
 * taken as given functions (`Checks`). The router is
 * modelled as a pure function from request to outcome.
 */
module EquipmentRoutes {
  import opened Outcomes
  import Jwt

  datatype HttpMethod = GET | POST | PUT | DELETE | OtherMethod

  /**
   * The body fields the create validators read, as the text they see; an
   * absent field is `None` and is validated as the empty string.
   */
  datatype CreateBody = CreateBody(
    name: Option<string>,
    kind: Option<string>,
    brand: Option<string>,
    model: Option<string>,
    serialNumber: Option<string>,
    status: Option<string>)

  /** A request as the router sees it: HTTP method, path below the mount point, body. */
  datatype Request = Request(verb: HttpMethod, path: string, body: CreateBody)

  /** The controller actions the routes lead to. */
  datatype Handler =
    | GetAllEquipment
    | GetMyEquipment
    | GetEquipmentById
    | CreateEquipment
    | UpdateEquipment
    | DeleteEquipment

  /** How a request leaves the router. */
  datatype Outcome =
    | Unauthenticated                          // rejected by token authentication (401)
    | Forbidden                                // rejected by the admin check (403)
    | ValidationFailed(errors: seq<string>)    // rejected by the validators (400)
    | Dispatched(handler: Handler, id: Option<string>, claims: Jwt.Claims)
    | NoRoute                                  // no route of this router matches

  /** The middlewares and the validator whose code is not part of this model. */
  datatype Checks = Checks(
    authenticate: Request -> Option<Jwt.Claims>,
    isAdmin: Jwt.Claims -> bool,
    isMongoId: string -> bool)

  const InvalidIdMessage: string := "ID inválido"
  const NameMessage: string := "El nombre debe tener entre 2 y 100 caracteres"
  const TypeMessage: string := "Tipo de equipo inválido"
  const BrandMessage: string := "La marca debe tener entre 1 y 50 caracteres"
  const ModelMessage: string := "El modelo debe tener entre 1 y 50 caracteres"
  const SerialMessage: string := "El número de serie es requerido"
  const StatusMessage: string := "Estado inválido"

  const TypeNames: seq<string> := ["laptop", "desktop", "monitor", "printer", "server", "other"]
  const StatusNames: seq<string> := ["available", "in_use", "maintenance", "retired"]

  const MyEquipmentPath: string := "/my-equipment"

  /** The six create messages have six different lengths, so no two are equal. */
  lemma MessageLengths()
    ensures |NameMessage| == 45 && |TypeMessage| == 23 && |BrandMessage| == 43
    ensures |ModelMessage| == 44 && |SerialMessage| == 31 && |StatusMessage| == 15
  {
  }

  /** The text a validator sees for a field: an absent field reads as `""`. */
  function FieldText(v: Option<string>): string
  {
    if v.Some? then v.value else ""
  }

  // What each validator chain accepts, on the text it sees.
  predicate NameOk(b: CreateBody) { 2 <= |FieldText(b.name)| <= 100 }
  predicate KindOk(b: CreateBody) { FieldText(b.kind) in TypeNames }
  predicate BrandOk(b: CreateBody) { |FieldText(b.brand)| >= 1 }
  predicate ModelOk(b: CreateBody) { |FieldText(b.model)| >= 1 }
  predicate SerialOk(b: CreateBody) { |FieldText(b.serialNumber)| >= 1 }
  predicate StatusOk(b: CreateBody) { FieldText(b.status) in StatusNames }

  /** The messages of one validator chain: its message when it fails, nothing otherwise. */
  function Flag(ok: bool, message: string): (errors: seq<string>)
    ensures |errors| == if ok then 0 else 1
    ensures forall m :: m in errors <==> !ok && m == message
  {
    if ok then [] else [message]
  }

  /** How many of the six create fields are unacceptable. */
  function FailingFields(b: CreateBody): nat
  {
    (if NameOk(b) then 0 else 1) + (if KindOk(b) then 0 else 1) + (if BrandOk(b) then 0 else 1)
    + (if ModelOk(b) then 0 else 1) + (if SerialOk(b) then 0 else 1) + (if StatusOk(b) then 0 else 1)
  }

  /**
   * The error messages of the create validators, in the order the chains are
   * declared: each field contributes its own message exactly when it fails,
   * and there is one message per failing field, so none is repeated.
   */
  function CreateErrors(b: CreateBody): (errors: seq<string>)
    ensures errors == [] <==> ValidCreateBody(b)
    ensures NameMessage in errors <==> !NameOk(b)
    ensures TypeMessage in errors <==> !KindOk(b)
    ensures BrandMessage in errors <==> !BrandOk(b)
    ensures ModelMessage in errors <==> !ModelOk(b)
    ensures SerialMessage in errors <==> !SerialOk(b)
    ensures StatusMessage in errors <==> !StatusOk(b)
    ensures |errors| == FailingFields(b) <= 6
  {
    MessageLengths();
    assert "" !in TypeNames && "" !in StatusNames;
    Flag(NameOk(b), NameMessage) + Flag(KindOk(b), TypeMessage) + Flag(BrandOk(b), BrandMessage)
    + Flag(ModelOk(b), ModelMessage) + Flag(SerialOk(b), SerialMessage) + Flag(StatusOk(b), StatusMessage)
  }

  /** An acceptable create body, field by field. */
  predicate ValidCreateBody(b: CreateBody)
  {
    && b.name.Some? && 2 <= |b.name.value| <= 100
    && b.kind.Some? && b.kind.value in {"laptop", "desktop", "monitor", "printer", "server", "other"}
    && b.status.Some? && b.status.value in {"available", "in_use", "maintenance", "retired"}
    && b.brand.Some? && b.brand.value != []
    && b.model.Some? && b.model.value != []
    && b.serialNumber.Some? && b.serialNumber.value != []
  }

  /** The messages speak of 50 characters, but brand and model have no upper bound. */
  lemma NoFiftyCharacterLimit(b: CreateBody)
    requires ValidCreateBody(b)
    ensures forall s :: s != [] ==> CreateErrors(b.(brand := Some(s), model := Some(s))) == []
  {
  }

  /** The `:id` parameter of a one-segment path `/<id>`. */
  function IdParam(path: string): Option<string>
  {
    if |path| >= 2 && path[0] == '/' && '/' !in path[1..] then Some(path[1..]) else None
  }

  /** The id routes: `idValidation`, then the handler. */
  function WithValidId(h: Handler, id: string, claims: Jwt.Claims, checks: Checks): (r: Outcome)
    ensures checks.isMongoId(id) ==> r == Dispatched(h, Some(id), claims)
    ensures !checks.isMongoId(id) ==> r == ValidationFailed([InvalidIdMessage])
  {
    if checks.isMongoId(id) then Dispatched(h, Some(id), claims) else ValidationFailed([InvalidIdMessage])
  }

  /**
   * The router, in registration order: authentication for every request;
   * `GET /`, `GET /my-equipment`, `GET /:id`; then `POST /`, `PUT /:id` and
   * `DELETE /:id`, each behind the admin check.
   */
  function Dispatch(req: Request, checks: Checks): (r: Outcome)
    ensures r == Unauthenticated <==> checks.authenticate(req).None?
    ensures r.Dispatched? ==> checks.authenticate(req) == Some(r.claims)
    ensures r.Dispatched? && r.handler in {CreateEquipment, UpdateEquipment, DeleteEquipment} ==>
              checks.isAdmin(r.claims) && req.verb != GET
    ensures r.Dispatched? && r.id.Some? ==> checks.isMongoId(r.id.value)
    ensures r.Dispatched? && r.handler == GetEquipmentById ==> r.id.Some? && r.id.value != MyEquipmentPath[1..]
    ensures r.Dispatched? && r.handler == CreateEquipment ==> ValidCreateBody(req.body)
    ensures r == Forbidden ==> req.verb in {POST, PUT, DELETE}
  {
    match checks.authenticate(req)
    case None => Unauthenticated
    case Some(claims) =>
      var id := IdParam(req.path);
      if req.verb == GET && req.path == "/" then Dispatched(GetAllEquipment, None, claims)
      else if req.verb == GET && req.path == MyEquipmentPath then Dispatched(GetMyEquipment, None, claims)
      else if req.verb == GET && id.Some? then WithValidId(GetEquipmentById, id.value, claims, checks)
      else if req.verb == POST && req.path == "/" then
        if !checks.isAdmin(claims) then Forbidden
        else
          var errors := CreateErrors(req.body);
          if errors != [] then ValidationFailed(errors) else Dispatched(CreateEquipment, None, claims)
      else if req.verb == PUT && id.Some? then
        if !checks.isAdmin(claims) then Forbidden else WithValidId(UpdateEquipment, id.value, claims, checks)
      else if req.verb == DELETE && id.Some? then
        if !checks.isAdmin(claims) then Forbidden else WithValidId(DeleteEquipment, id.value, claims, checks)
      else NoRoute
  }

  /** True of the mutating routes: `POST /`, `PUT /:id`, `DELETE /:id`. */
  predicate IsMutatingRoute(req: Request)
  {
    || (req.verb == POST && req.path == "/")
    || (req.verb == PUT && IdParam(req.path).Some?)
    || (req.verb == DELETE && IdParam(req.path).Some?)
  }

  /**
   * An authenticated non-admin is refused on every mutating route whatever
   * the body and whether or not the id is valid: no validator and no handler
   * runs.
   */
  lemma NonAdminCannotMutate(req: Request, checks: Checks)
    requires IsMutatingRoute(req)
    requires checks.authenticate(req).Some? && !checks.isAdmin(checks.authenticate(req).value)
    ensures Dispatch(req, checks) == Forbidden
  {
  }

  /** The three read routes never apply the admin check. */
  lemma ReadsNeedNoAdmin(req: Request, checks: Checks)
    requires req.verb == GET && checks.authenticate(req).Some?
    ensures Dispatch(req, checks) != Forbidden
    ensures req.path == "/" ==> Dispatch(req, checks) == Dispatched(GetAllEquipment, None, checks.authenticate(req).value)
  {
  }

  /** `/my-equipment` is registered before `/:id`, so it is never read as an id. */
  lemma MyEquipmentIsNotAnId(req: Request, checks: Checks)
    requires req.verb == GET && req.path == MyEquipmentPath && checks.authenticate(req).Some?
    ensures Dispatch(req, checks) == Dispatched(GetMyEquipment, None, checks.authenticate(req).value)
  {
  }

  /** On the id routes, a malformed id stops the request with `ID inválido` before the handler. */
  lemma InvalidIdRejected(req: Request, checks: Checks)
    requires req.verb in {GET, PUT, DELETE} && IdParam(req.path).Some?
    requires req.verb == GET ==> req.path != MyEquipmentPath
    requires !checks.isMongoId(IdParam(req.path).value)
    requires checks.authenticate(req).Some?
    requires req.verb != GET ==> checks.isAdmin(checks.authenticate(req).value)
    ensures Dispatch(req, checks) == ValidationFailed([InvalidIdMessage])
  {
    assert req.path != "/";
  }

  /** An admin's `POST /` reaches the create handler exactly when the body is acceptable. */
  lemma AdminCreateAdmission(req: Request, checks: Checks)
    requires req.verb == POST && req.path == "/"
    requires checks.authenticate(req).Some? && checks.isAdmin(checks.authenticate(req).value)
    ensures Dispatch(req, checks).Dispatched? <==> ValidCreateBody(req.body)
    ensures ValidCreateBody(req.body) ==>
              Dispatch(req, checks) == Dispatched(CreateEquipment, None, checks.authenticate(req).value)
    ensures !ValidCreateBody(req.body) ==> Dispatch(req, checks) == ValidationFailed(CreateErrors(req.body))
  {
  }

  /** The handler an id route leads to. */
  function IdHandler(verb: HttpMethod): Handler
  {
    if verb == GET then GetEquipmentById else if verb == PUT then UpdateEquipment else DeleteEquipment
  }

  /**
   * An admitted request on an id route reaches its handler with that id:
   * authenticated, an id passing `isMongoId`, and the admin role for PUT and
   * DELETE. `GET /my-equipment` is the one GET excluded, being matched first.
   */
  lemma IdRouteAdmission(req: Request, checks: Checks)
    requires req.verb in {GET, PUT, DELETE} && IdParam(req.path).Some?
    requires req.verb == GET ==> req.path != MyEquipmentPath
    requires checks.isMongoId(IdParam(req.path).value)
    requires checks.authenticate(req).Some?
    requires req.verb != GET ==> checks.isAdmin(checks.authenticate(req).value)
    ensures Dispatch(req, checks) ==
              Dispatched(IdHandler(req.verb), IdParam(req.path), checks.authenticate(req).value)
  {
    assert req.path != "/";
  }
}

=== FILE: equipment_service.dfy ===
/**
 * The equipment service (`EquipmentService`): create, read, partially update
 * and delete equipment records, list them with filters and pagination, and
 * list the records assigned to one user.
 *
 * The MongoDB collection is the field `table` of `EquipmentTable`, a map from
 * document id to stored document. Listing order is "newest `createdAt` first";
 * the database breaks ties in an unspecified way, so the model fixes some
 * order among equal timestamps and promises nothing about it.
 */
module EquipmentService {
  import opened Outcomes

  datatype EquipmentType = Laptop | Desktop | Monitor | Printer | Server | OtherType

  datatype Status = Available | InUse | Maintenance | Retired

  /** The enum value as stored, and as compared against the `type` filter. */
  function TypeName(t: EquipmentType): string
  {
    match t
    case Laptop => "laptop"
    case Desktop => "desktop"
    case Monitor => "monitor"
    case Printer => "printer"
    case Server => "server"
    case OtherType => "other"
  }

  function StatusName(s: Status): string
  {
    match s
    case Available => "available"
    case InUse => "in_use"
    case Maintenance => "maintenance"
    case Retired => "retired"
  }

  /** A document id; `toString()` gives its hexadecimal text. */
  datatype ObjectId = ObjectId(hex: string)

  type Specifications = map<string, string>

  /** A stored equipment document. Timestamps are naturals. */
  datatype EquipmentDoc = EquipmentDoc(
    id: ObjectId,
    name: string,
    kind: EquipmentType,
    brand: string,
    model: string,
    serialNumber: string,
    status: Status,
    assignedTo: Option<ObjectId>,
    specifications: Specifications,
    createdAt: nat,
    updatedAt: nat)

  /** The plain object the service returns (`IEquipment`): ids as strings. */
  datatype Equipment = Equipment(
    id: string,
    name: string,
    kind: EquipmentType,
    brand: string,
    model: string,
    serialNumber: string,
    status: Status,
    assignedTo: Option<string>,
    specifications: Specifications,
    createdAt: nat,
    updatedAt: nat)

  /** The fields a caller supplies to create a record (`IEquipmentCreate`). */
  datatype EquipmentCreate = EquipmentCreate(
    name: string,
    kind: EquipmentType,
    brand: string,
    model: string,
    serialNumber: string,
    status: Status,
    assignedTo: Option<ObjectId>,
    specifications: Specifications)

  /**
   * A partial update (`IEquipmentUpdate`): `None` leaves a field alone. For
   * `assignedTo`, `Some(None)` is an explicit `null` that unassigns.
   */
  datatype EquipmentUpdate = EquipmentUpdate(
    name: Option<string>,
    kind: Option<EquipmentType>,
    brand: Option<string>,
    model: Option<string>,
    serialNumber: Option<string>,
    status: Option<Status>,
    assignedTo: Option<Option<ObjectId>>,
    specifications: Option<Specifications>)

  /** The raw `type`, `status` and `brand` filter values of a listing request. */
  datatype Filters = Filters(kind: Option<string>, status: Option<string>, brand: Option<string>)

  /** The query object: a condition is present only where one was set. */
  datatype Query = Query(kind: Option<string>, status: Option<string>, brandPattern: Option<string>)

  /** The defaults of a listing request without arguments. */
  const DefaultPage: nat := 1
  const DefaultLimit: nat := 10
  const NoFilters := Filters(None, None, None)

  /** One page of a listing, with the overall count and the page count. */
  datatype Page = Page(equipment: seq<Equipment>, total: nat, page: nat, totalPages: nat)

  // ---------------------------------------------------------------------------
  // Projection

  /** `toEquipmentObject`: the returned object, with the ids turned into their text. */
  function ToEquipmentObject(d: EquipmentDoc): (e: Equipment)
    ensures e.id == d.id.hex
    ensures e.assignedTo.Some? <==> d.assignedTo.Some?
    ensures d.assignedTo.Some? ==> e.assignedTo.value == d.assignedTo.value.hex
    ensures e.name == d.name && e.kind == d.kind && e.brand == d.brand && e.model == d.model
    ensures e.serialNumber == d.serialNumber && e.status == d.status && e.specifications == d.specifications
    ensures e.createdAt == d.createdAt && e.updatedAt == d.updatedAt
  {
    Equipment(
      d.id.hex, d.name, d.kind, d.brand, d.model, d.serialNumber, d.status,
      if d.assignedTo.Some? then Some(d.assignedTo.value.hex) else None,
      d.specifications, d.createdAt, d.updatedAt)
  }

  /** The projection drops nothing: distinct documents give distinct objects. */
  lemma ToEquipmentObjectInjective(d1: EquipmentDoc, d2: EquipmentDoc)
    ensures ToEquipmentObject(d1) == ToEquipmentObject(d2) <==> d1 == d2
  {
    if ToEquipmentObject(d1) == ToEquipmentObject(d2) {
      assert d1.assignedTo == d2.assignedTo by {
        if d1.assignedTo.Some? {
          assert ToEquipmentObject(d2).assignedTo.Some?;
        }
      }
    }
  }

  function Views(s: seq<EquipmentDoc>): seq<Equipment>
  {
    seq(|s|, i requires 0 <= i < |s| => ToEquipmentObject(s[i]))
  }

  // ---------------------------------------------------------------------------
  // Filters

  /** Builds the query by conditional assignment: a filter set only when its value is truthy. */
  function BuildQuery(f: Filters): (q: Query)
    ensures q.kind.Some? <==> Truthy(f.kind)
    ensures q.status.Some? <==> Truthy(f.status)
    ensures q.brandPattern.Some? <==> Truthy(f.brand)
    ensures q.kind.Some? ==> q.kind == f.kind
    ensures q.status.Some? ==> q.status == f.status
    ensures q.brandPattern.Some? ==> q.brandPattern == f.brand
  {
    Query(
      if Truthy(f.kind) then f.kind else None,
      if Truthy(f.status) then f.status else None,
      if Truthy(f.brand) then f.brand else None)
  }

  /**
   * Whether a document satisfies a query: `type` and `status` by exact
   * equality; `brand` by the database's case-insensitive regular-expression
   * match, which is left abstract as `brandMatches(pattern, brand)`.
   */
  predicate Matches(q: Query, d: EquipmentDoc, brandMatches: (string, string) -> bool)
  {
    && (q.kind.None? || TypeName(d.kind) == q.kind.value)
    && (q.status.None? || StatusName(d.status) == q.status.value)
    && (q.brandPattern.None? || brandMatches(q.brandPattern.value, d.brand))
  }

  /** With no filter values at all, or only empty ones, every document matches. */
  lemma NoFiltersMatchEverything(f: Filters, d: EquipmentDoc, brandMatches: (string, string) -> bool)
    requires !Truthy(f.kind) && !Truthy(f.status) && !Truthy(f.brand)
    ensures Matches(BuildQuery(f), d, brandMatches)
  {
  }

  /** A given `type` or `status` filter keeps exactly the documents with that value. */
  lemma TypeAndStatusFiltersAreExact(t: EquipmentType, s: Status, d: EquipmentDoc, brandMatches: (string, string) -> bool)
    ensures Matches(BuildQuery(Filters(Some(TypeName(t)), None, None)), d, brandMatches) <==> d.kind == t
    ensures Matches(BuildQuery(Filters(None, Some(StatusName(s)), None)), d, brandMatches) <==> d.status == s
  {
    match t
    case Laptop =>
    case Desktop =>
    case Monitor =>
    case Printer =>
    case Server =>
    case OtherType =>
  }

  // ---------------------------------------------------------------------------
  // Ordering: newest first

  ghost predicate NewestFirst(s: seq<EquipmentDoc>)
  {
    forall i, j :: 0 <= i < j < |s| ==> s[i].createdAt >= s[j].createdAt
  }

  ghost predicate IsNewest(d: EquipmentDoc, docs: set<EquipmentDoc>)
  {
    d in docs && forall e :: e in docs ==> e.createdAt <= d.createdAt
  }

  lemma {:induction false} NewestExists(docs: set<EquipmentDoc>)
    requires docs != {}
    ensures exists d :: IsNewest(d, docs)
    decreases |docs|
  {
    var x :| x in docs;
    if docs - {x} == {} {
      assert docs == {x};
      assert IsNewest(x, docs);
    } else {
      NewestExists(docs - {x});
      var m :| IsNewest(m, docs - {x});
      if m.createdAt >= x.createdAt {
        assert IsNewest(m, docs);
      } else {
        assert IsNewest(x, docs);
      }
    }
  }

  /**
   * The documents of `docs`, each exactly once, newest first: what
   * `.sort({ createdAt: -1 })` yields for a result set.
   */
  ghost function Listing(docs: set<EquipmentDoc>): (r: seq<EquipmentDoc>)
    ensures |r| == |docs|
    ensures forall d :: d in r <==> d in docs
    ensures forall i, j :: 0 <= i < j < |r| ==> r[i] != r[j]
    ensures NewestFirst(r)
    decreases |docs|
  {
    if docs == {} then []
    else
      NewestExists(docs);
      var d :| IsNewest(d, docs);
      [d] + Listing(docs - {d})
  }

  /** Turning documents into returned objects keeps them distinct and in order. */
  lemma ViewsPreserve(s: seq<EquipmentDoc>)
    requires forall i, j :: 0 <= i < j < |s| ==> s[i] != s[j]
    requires NewestFirst(s)
    ensures forall d :: d in s ==> ToEquipmentObject(d) in Views(s)
    ensures forall i, j :: 0 <= i < j < |s| ==> Views(s)[i] != Views(s)[j]
    ensures forall i, j :: 0 <= i < j < |s| ==> Views(s)[i].createdAt >= Views(s)[j].createdAt
  {
    var r := Views(s);
    forall i, j | 0 <= i < j < |s| ensures r[i] != r[j] {
      ToEquipmentObjectInjective(s[i], s[j]);
    }
    forall d | d in s ensures ToEquipmentObject(d) in r {
      var i :| 0 <= i < |s| && s[i] == d;
      assert r[i] == ToEquipmentObject(d);
    }
  }

  // ---------------------------------------------------------------------------
  // Pagination arithmetic

  /**
   * `skip = (page - 1) * limit`: page 1 starts at 0, and each page starts
   * where the one before it ends.
   */
  function Skip(page: nat, limit: nat): (skip: nat)
    requires page >= 1
    ensures page == 1 ==> skip == 0
    ensures skip + limit == page * limit
  {
    (page - 1) * limit
  }

  /** The offset of a page is a whole number of pages, `page - 1` of them. */
  lemma SkipIsPageOffset(page: nat, limit: nat)
    requires page >= 1 && limit >= 1
    ensures Skip(page, limit) % limit == 0
    ensures Skip(page, limit) / limit == page - 1
  {
    LemmaMulDivExact(page - 1, limit);
  }

  /** `Math.ceil(total / limit)`, in integers: the least `n` with `n * limit >= total`. */
  function CeilDiv(total: nat, limit: nat): (n: nat)
    requires limit >= 1
    ensures n * limit >= total
    ensures n == 0 || (n - 1) * limit < total
  {
    var n, r := (total + limit - 1) / limit, (total + limit - 1) % limit;
    assert total + limit - 1 == n * limit + r;
    assert (n - 1) * limit == n * limit - limit;
    n
  }

  lemma LemmaMulDivExact(a: nat, b: nat)
    requires b >= 1
    ensures (a * b) / b == a && (a * b) % b == 0
  {
    var q, r := (a * b) / b, (a * b) % b;
    assert a * b == q * b + r && 0 <= r < b;
    if q < a {
      MulMonotone(q + 1, a, b);
    } else if q > a {
      MulMonotone(a + 1, q, b);
    }
    assert (q + 1) * b == q * b + b;
  }

  lemma MulMonotone(x: int, y: int, l: nat)
    ensures x <= y ==> x * l <= y * l
  {
    assert y * l - x * l == (y - x) * l;
  }

  /** `total = 25, limit = 10` gives 3 pages; no records give 0 pages. */
  lemma CeilDivExamples(limit: nat)
    requires limit >= 1
    ensures CeilDiv(25, 10) == 3
    ensures CeilDiv(0, limit) == 0
  {
  }

  /**
   * Every position `i` of the full listing lies on exactly one page, page
   * `i / limit + 1`, and that page is among pages `1 .. totalPages`.
   */
  lemma EveryPositionOnOnePage(total: nat, limit: nat, i: nat, page: nat)
    requires limit >= 1 && i < total && page >= 1
    ensures 1 <= i / limit + 1 <= CeilDiv(total, limit)
    ensures Skip(i / limit + 1, limit) <= i < Skip(i / limit + 1, limit) + limit
    ensures Skip(page, limit) <= i < Skip(page, limit) + limit ==> page == i / limit + 1
  {
    var p := i / limit;
    DivModSplit(i, limit);
    assert (p + 1) * limit == p * limit + limit;
    var n := CeilDiv(total, limit);
    MulMonotone(n, p, limit);
    var k := page - 1;
    assert Skip(page, limit) == k * limit;
    assert (k + 1) * limit == k * limit + limit;
    MulMonotone(k + 1, p, limit);
    MulMonotone(p + 1, k, limit);
  }

  /** Position `i` sits `i % limit` items past the start of page `i / limit + 1`. */
  lemma DivModSplit(i: nat, limit: nat)
    requires limit >= 1
    ensures Skip(i / limit + 1, limit) + i % limit == i
    ensures i % limit < limit
  {
    assert i == (i / limit) * limit + i % limit;
  }

  /** The part `[skip, skip + limit)` of a listing, clipped to its length. */
  function PageOf<T>(s: seq<T>, skip: nat, limit: nat): (r: seq<T>)
    ensures |r| == if skip >= |s| then 0 else if skip + limit <= |s| then limit else |s| - skip
    ensures forall i :: 0 <= i < |r| ==> skip + i < |s| && r[i] == s[skip + i]
  {
    var lo := if skip < |s| then skip else |s|;
    var hi := if skip + limit < |s| then skip + limit else |s|;
    s[lo..hi]
  }

  // ---------------------------------------------------------------------------
  // The collection

  /** A map whose documents carry their own key holds as many documents as keys. */
  lemma {:induction false} KeyedDocsCount(m: map<ObjectId, EquipmentDoc>)
    requires forall k :: k in m ==> m[k].id == k
    ensures |m.Values| == |m|
  {
    if m != map[] {
      var k :| k in m;
      var rest := m - {k};
      KeyedDocsCount(rest);
      assert |m.Values| == |rest.Values| + 1 by {
        assert m[k] !in rest.Values by {
          forall j | j in rest ensures rest[j] != m[k] {
            assert rest[j].id == j != k;
          }
        }
        assert m.Values == rest.Values + {m[k]};
      }
      assert |m| == |rest| + 1 by {
        assert m.Keys == rest.Keys + {k};
      }
    }
  }

  class EquipmentTable {
    var table: map<ObjectId, EquipmentDoc>

    /** Each document is stored under its own id. */
    ghost predicate Valid()
      reads this
    {
      forall k :: k in table ==> table[k].id == k
    }

    /** No two stored documents share a serial number. */
    ghost predicate SerialsUnique()
      reads this
    {
      forall k1, k2 :: k1 in table && k2 in table && k1 != k2 ==>
        table[k1].serialNumber != table[k2].serialNumber
    }

    constructor ()
      ensures Valid() && SerialsUnique() && table == map[]
    {
      table := map[];
    }

    predicate SerialInUse(serial: string)
      reads this
    {
      exists k :: k in table && table[k].serialNumber == serial
    }

    /** The documents that satisfy a query. */
    ghost function MatchingDocs(q: Query, brandMatches: (string, string) -> bool): set<EquipmentDoc>
      reads this
    {
      set d | d in table.Values && Matches(q, d, brandMatches)
    }

    /** `getEquipmentById`: the object for a stored id, otherwise `Equipo no encontrado`. */
    function GetEquipmentById(id: string): (r: Result<Equipment>)
      reads this
      requires Valid()
      ensures r.Ok? <==> ObjectId(id) in table
      ensures r.Ok? ==> r.value.id == id && r.value == ToEquipmentObject(table[ObjectId(id)])
      ensures r.Err? ==> r.error == EquipmentNotFound
    {
      if ObjectId(id) in table then Ok(ToEquipmentObject(table[ObjectId(id)]))
      else Err(EquipmentNotFound)
    }

    /**
     * `getAllEquipment`: the page `[skip, skip + limit)` of the matching
     * documents sorted newest first, the number of all matches, and
     * `ceil(total / limit)` pages.
     */
    ghost function GetAllEquipment(page: nat, limit: nat, f: Filters, brandMatches: (string, string) -> bool): (r: Page)
      reads this
      requires page >= 1 && limit >= 1
      ensures r.page == page
      ensures r.total == |MatchingDocs(BuildQuery(f), brandMatches)|
      ensures r.totalPages * limit >= r.total
      ensures r.totalPages == 0 || (r.totalPages - 1) * limit < r.total
      ensures |r.equipment| <= limit
      ensures |r.equipment| == if Skip(page, limit) >= r.total then 0
                               else if Skip(page, limit) + limit <= r.total then limit
                               else r.total - Skip(page, limit)
      ensures forall i :: 0 <= i < |r.equipment| ==>
                Skip(page, limit) + i < r.total &&
                r.equipment[i] == ToEquipmentObject(Listing(MatchingDocs(BuildQuery(f), brandMatches))[Skip(page, limit) + i])
      ensures forall i, j :: 0 <= i < j < |r.equipment| ==> r.equipment[i].createdAt >= r.equipment[j].createdAt
    {
      var sorted := Listing(MatchingDocs(BuildQuery(f), brandMatches));
      var skip := Skip(page, limit);
      var items := PageOf(sorted, skip, limit);
      Page(Views(items), |sorted|, page, CeilDiv(|sorted|, limit))
    }

    /** Every item of a listing page is a stored document that satisfies the filters. */
    lemma PageItemsMatch(page: nat, limit: nat, f: Filters, brandMatches: (string, string) -> bool)
      requires Valid() && page >= 1 && limit >= 1
      ensures forall i :: 0 <= i < |GetAllEquipment(page, limit, f, brandMatches).equipment| ==>
                exists k :: k in table && Matches(BuildQuery(f), table[k], brandMatches) &&
                  GetAllEquipment(page, limit, f, brandMatches).equipment[i] == ToEquipmentObject(table[k])
    {
      var docs := MatchingDocs(BuildQuery(f), brandMatches);
      var pg := GetAllEquipment(page, limit, f, brandMatches);
      forall i | 0 <= i < |pg.equipment|
        ensures exists k :: k in table && Matches(BuildQuery(f), table[k], brandMatches) &&
                  pg.equipment[i] == ToEquipmentObject(table[k])
      {
        var d := Listing(docs)[Skip(page, limit) + i];
        assert d in docs;
        var k :| k in table && Matches(BuildQuery(f), table[k], brandMatches) && table[k] == d;
      }
    }

    /**
     * Within one listing order, whenever position `skip + offset` of the
     * sorted matches exists, page `page` is within `1 .. totalPages` and holds
     * that match as its item `offset`. Each page is a separate query in the
     * source, and only records with distinct `createdAt` are sure to keep
     * their position from one query to the next.
     */
    lemma EveryMatchIsOnItsPage(page: nat, limit: nat, f: Filters, brandMatches: (string, string) -> bool, offset: nat)
      requires Valid() && page >= 1 && limit >= 1 && offset < limit
      requires Skip(page, limit) + offset < |MatchingDocs(BuildQuery(f), brandMatches)|
      ensures page <= GetAllEquipment(page, limit, f, brandMatches).totalPages
      ensures offset < |GetAllEquipment(page, limit, f, brandMatches).equipment|
      ensures GetAllEquipment(page, limit, f, brandMatches).equipment[offset] ==
                ToEquipmentObject(Listing(MatchingDocs(BuildQuery(f), brandMatches))[Skip(page, limit) + offset])
    {
      var pg := GetAllEquipment(page, limit, f, brandMatches);
      var skip := Skip(page, limit);
      assert offset < |pg.equipment| by {
        assert skip < pg.total;
      }
      assert page <= pg.totalPages by {
        assert skip == (page - 1) * limit;
        MulMonotone(pg.totalPages, page - 1, limit);
      }
    }

    /**
     * A call without arguments (`page = 1`, `limit = 10`, `filters = {}`)
     * counts every stored document and returns the first ten of them, or all
     * of them if there are fewer.
     */
    lemma DefaultListing(brandMatches: (string, string) -> bool)
      requires Valid()
      ensures GetAllEquipment(DefaultPage, DefaultLimit, NoFilters, brandMatches).total == |table|
      ensures |GetAllEquipment(DefaultPage, DefaultLimit, NoFilters, brandMatches).equipment| ==
                if |table| < DefaultLimit then |table| else DefaultLimit
    {
      KeyedDocsCount(table);
      var docs := MatchingDocs(BuildQuery(NoFilters), brandMatches);
      forall d | d in table.Values ensures d in docs {
        NoFiltersMatchEverything(NoFilters, d, brandMatches);
      }
      assert docs == table.Values;
    }

    /** The total and the page count of a listing do not depend on the page asked for. */
    lemma TotalIndependentOfPage(p1: nat, p2: nat, limit: nat, f: Filters, brandMatches: (string, string) -> bool)
      requires p1 >= 1 && p2 >= 1 && limit >= 1
      ensures GetAllEquipment(p1, limit, f, brandMatches).total == GetAllEquipment(p2, limit, f, brandMatches).total
      ensures GetAllEquipment(p1, limit, f, brandMatches).totalPages == GetAllEquipment(p2, limit, f, brandMatches).totalPages
    {
    }

    /**
     * `getEquipmentByUser`: exactly the documents assigned to `userId`, each
     * once, newest first.
     */
    ghost function GetEquipmentByUser(userId: string): (r: seq<Equipment>)
      reads this
      requires Valid()
      ensures forall i :: 0 <= i < |r| ==> r[i].assignedTo == Some(userId)
      ensures forall i :: 0 <= i < |r| ==>
                exists k :: k in table && table[k].assignedTo == Some(ObjectId(userId)) && r[i] == ToEquipmentObject(table[k])
      ensures forall k :: k in table && table[k].assignedTo == Some(ObjectId(userId)) ==>
                ToEquipmentObject(table[k]) in r
      ensures forall i, j :: 0 <= i < j < |r| ==> r[i] != r[j]
      ensures forall i, j :: 0 <= i < j < |r| ==> r[i].createdAt >= r[j].createdAt
    {
      var mine := set d | d in table.Values && d.assignedTo == Some(ObjectId(userId));
      var sorted := Listing(mine);
      ViewsPreserve(sorted);
      assert forall i :: 0 <= i < |sorted| ==> sorted[i] in mine;
      assert forall k :: k in table ==> table[k] in table.Values;
      forall i | 0 <= i < |sorted|
        ensures exists k :: k in table && table[k].assignedTo == Some(ObjectId(userId)) && table[k] == sorted[i]
      {
        assert sorted[i] in table.Values;
        var k :| k in table && table[k] == sorted[i];
      }
      Views(sorted)
    }

    /**
     * `createEquipment`: refused with `El número de serie ya está registrado`
     * when the serial number is taken, leaving the table as it was; otherwise
     * exactly one document is added, under the fresh id the database assigns.
     */
    method CreateEquipment(data: EquipmentCreate, newId: ObjectId, now: nat) returns (r: Result<Equipment>)
      requires Valid()
      requires newId !in table
      modifies this
      ensures Valid()
      ensures old(SerialInUse(data.serialNumber)) ==> r == Err(SerialTaken) && table == old(table)
      ensures !old(SerialInUse(data.serialNumber)) ==>
                var d := EquipmentDoc(newId, data.name, data.kind, data.brand, data.model, data.serialNumber,
                                      data.status, data.assignedTo, data.specifications, now, now);
                && table == old(table)[newId := d]
                && r == Ok(ToEquipmentObject(d))
                && GetEquipmentById(newId.hex) == r
      ensures table.Keys >= old(table.Keys) && forall k :: k in old(table) ==> table[k] == old(table)[k]
      ensures |table| == if r.Ok? then old(|table|) + 1 else old(|table|)
      ensures old(SerialsUnique()) ==> SerialsUnique()
    {
      if SerialInUse(data.serialNumber) {
        return Err(SerialTaken);
      }
      var d := EquipmentDoc(newId, data.name, data.kind, data.brand, data.model, data.serialNumber,
                            data.status, data.assignedTo, data.specifications, now, now);
      table := table[newId := d];
      r := Ok(ToEquipmentObject(d));
    }

    /**
     * `updateEquipment`: on an absent id, `Equipo no encontrado` and no change;
     * otherwise the supplied fields are overwritten, `updatedAt` is set, and
     * every other document is left as it was.
     */
    method UpdateEquipment(id: string, patch: EquipmentUpdate, now: nat) returns (r: Result<Equipment>)
      requires Valid()
      modifies this
      ensures Valid()
      ensures ObjectId(id) !in old(table) ==> r == Err(EquipmentNotFound) && table == old(table)
      ensures ObjectId(id) in old(table) ==>
                && table == old(table)[ObjectId(id) := Merge(old(table)[ObjectId(id)], patch, now)]
                && r == Ok(ToEquipmentObject(table[ObjectId(id)]))
                && r.value.id == id && r.value.updatedAt == now
      ensures table.Keys == old(table.Keys)
      ensures (old(SerialsUnique()) &&
               (patch.serialNumber.None? ||
                !exists k :: k in old(table) && k != ObjectId(id) && old(table)[k].serialNumber == patch.serialNumber.value))
                ==> SerialsUnique()
    {
      var oid := ObjectId(id);
      if oid !in table {
        return Err(EquipmentNotFound);
      }
      var d := Merge(table[oid], patch, now);
      table := table[oid := d];
      r := Ok(ToEquipmentObject(d));
    }

    /** `deleteEquipment`: removes exactly the given id, or fails with `Equipo no encontrado`. */
    method DeleteEquipment(id: string) returns (r: Result<()>)
      requires Valid()
      modifies this
      ensures Valid()
      ensures ObjectId(id) !in old(table) ==> r == Err(EquipmentNotFound) && table == old(table)
      ensures ObjectId(id) in old(table) ==> r == Ok(()) && table == old(table) - {ObjectId(id)}
      ensures |table| == if r.Ok? then old(|table|) - 1 else old(|table|)
      ensures old(SerialsUnique()) ==> SerialsUnique()
    {
      var oid := ObjectId(id);
      if oid !in table {
        return Err(EquipmentNotFound);
      }
      table := table - {oid};
      r := Ok(());
    }
  }

  /** `{ ...updateData, updatedAt: new Date() }` applied to a stored document. */
  function Merge(d: EquipmentDoc, p: EquipmentUpdate, now: nat): (m: EquipmentDoc)
    ensures m.id == d.id && m.createdAt == d.createdAt && m.updatedAt == now
  {
    EquipmentDoc(
      d.id,
      if p.name.Some? then p.name.value else d.name,
      if p.kind.Some? then p.kind.value else d.kind,
      if p.brand.Some? then p.brand.value else d.brand,
      if p.model.Some? then p.model.value else d.model,
      if p.serialNumber.Some? then p.serialNumber.value else d.serialNumber,
      if p.status.Some? then p.status.value else d.status,
      if p.assignedTo.Some? then p.assignedTo.value else d.assignedTo,
      if p.specifications.Some? then p.specifications.value else d.specifications,
      d.createdAt,
      now)
  }

  const NoChanges := EquipmentUpdate(None, None, None, None, None, None, None, None)

  /**
   * An empty update only refreshes `updatedAt`, and applying the same update
   * twice is the same as applying it once.
   */
  lemma MergeLaws(d: EquipmentDoc, p: EquipmentUpdate, now: nat, later: nat)
    ensures Merge(d, NoChanges, now) == d.(updatedAt := now)
    ensures Merge(Merge(d, p, now), p, later) == Merge(d, p, later)
  {
  }

  /**
   * Field by field, a supplied value replaces the stored one and an absent
   * field keeps the stored value.
   */
  lemma MergeTakesSuppliedFields(d: EquipmentDoc, p: EquipmentUpdate, now: nat)
    ensures p.name.Some? ==> Merge(d, p, now).name == p.name.value
    ensures p.name.None? ==> Merge(d, p, now).name == d.name
    ensures p.kind.Some? ==> Merge(d, p, now).kind == p.kind.value
    ensures p.kind.None? ==> Merge(d, p, now).kind == d.kind
    ensures p.brand.Some? ==> Merge(d, p, now).brand == p.brand.value
    ensures p.brand.None? ==> Merge(d, p, now).brand == d.brand
    ensures p.model.Some? ==> Merge(d, p, now).model == p.model.value
    ensures p.model.None? ==> Merge(d, p, now).model == d.model
    ensures p.serialNumber.Some? ==> Merge(d, p, now).serialNumber == p.serialNumber.value
    ensures p.serialNumber.None? ==> Merge(d, p, now).serialNumber == d.serialNumber
    ensures p.status.Some? ==> Merge(d, p, now).status == p.status.value
    ensures p.status.None? ==> Merge(d, p, now).status == d.status
    ensures p.assignedTo.Some? ==> Merge(d, p, now).assignedTo == p.assignedTo.value
    ensures p.assignedTo.None? ==> Merge(d, p, now).assignedTo == d.assignedTo
    ensures p.specifications.Some? ==> Merge(d, p, now).specifications == p.specifications.value
    ensures p.specifications.None? ==> Merge(d, p, now).specifications == d.specifications
  {
  }
}

=== FILE: jwt.dfy ===
/**
 * The token helper (`JWTHelper`): shaping the claims of a token from a public
 * user view, signing and verifying through the `jsonwebtoken` library, and
 * extracting the token from an `Authorization: Bearer <token>` header.
 *
 * The library is not modelled: `sign` and `verify` are opaque function values
 * handed in as a `JwtLibrary`. The only logic of the helper around them is
 * which payload, secret and lifetime it passes, and that every way `verify`
 * can fail surfaces as one and the same error. No clock is modelled: the
 * lifetime is passed on to `sign` and has no effect on anything proved here.
 */
module Jwt {
  import opened Outcomes
  import opened UserTypes
  import Text

  /** The claims signed into a token: exactly `id, email, role, name`. */
  datatype Claims = Claims(id: string, email: string, role: Role, name: string)

  /** The reasons the library's `verify` throws; expiry is only named, no clock is modelled. */
  datatype VerifyFailure = BadSignature | Expired | Malformed | NotYetValid

  datatype Verification = Verified(claims: Claims) | Rejected(cause: VerifyFailure)

  /** The two entry points of `jsonwebtoken` whose results the helper shapes. */
  datatype JwtLibrary = JwtLibrary(
    sign: (Claims, string, string) -> string,   // payload, secret, expiresIn
    verify: (string, string) -> Verification)   // token, secret

  const FallbackSecret: string := "fallback_secret"
  const ExpiresIn: string := "24h"
  const Scheme: string := "Bearer"
  const BearerPrefix: string := Scheme + " "

  /** `process.env.JWT_SECRET || 'fallback_secret'`: an unset or empty variable falls back. */
  function Secret(env: Option<string>): (secret: string)
    ensures secret != ""
    ensures Truthy(env) ==> secret == env.value
    ensures !Truthy(env) ==> secret == FallbackSecret
  {
    if Truthy(env) then env.value else FallbackSecret
  }

  /** `jwtPayload`: the projection of a user view onto the token claims. */
  function JwtPayload(u: UserView): (c: Claims)
    ensures c.id == u.id && c.email == u.email && c.role == u.role && c.name == u.name
  {
    Claims(u.id, u.email, u.role, u.name)
  }

  /**
   * The payload carries the four identity fields and nothing else: two views
   * give the same payload exactly when they agree on id, email, role and name,
   * whatever their `isActive` and `createdAt`.
   */
  lemma PayloadIsIdentityProjection(u: UserView, v: UserView)
    ensures JwtPayload(u) == JwtPayload(v) <==>
              u.id == v.id && u.email == v.email && u.role == v.role && u.name == v.name
  {
  }

  /**
   * The one property of the library the helper relies on: a token signed with
   * a secret verifies, under that same secret, to the claims it was signed with.
   * This is the behaviour within the token's lifetime (there is no clock here),
   * and it speaks only of the four identity claims, not the `iat`/`exp` fields
   * the library adds to what it returns.
   */
  ghost predicate SignVerifyLaw(lib: JwtLibrary)
  {
    forall c, secret, lifetime :: lib.verify(lib.sign(c, secret, lifetime), secret) == Verified(c)
  }

  /**
   * `generateToken`: sign the payload of `u` with the configured secret and a
   * 24h lifetime. Signing and verifying use the same secret, so under the
   * library's law the token verifies to exactly the payload of `u`.
   */
  function GenerateToken(lib: JwtLibrary, env: Option<string>, u: UserView): (token: string)
    ensures SignVerifyLaw(lib) ==> lib.verify(token, Secret(env)) == Verified(JwtPayload(u))
  {
    lib.sign(JwtPayload(u), Secret(env), ExpiresIn)
  }

  /** `verifyToken`: the library's claims on success; every failure becomes `InvalidToken`. */
  function VerifyToken(lib: JwtLibrary, env: Option<string>, token: string): (r: Result<Claims>)
    ensures r.Ok? <==> lib.verify(token, Secret(env)).Verified?
    ensures r.Ok? ==> r.value == lib.verify(token, Secret(env)).claims
    ensures r.Err? ==> r.error == InvalidToken && Message(r.error) == "Token inválido o expirado"
  {
    match lib.verify(token, Secret(env))
    case Verified(c) => Ok(c)
    case Rejected(_) => Err(InvalidToken)
  }

  /** Two tokens rejected for any two causes give identical results: the cause is not observable. */
  lemma VerifyFailuresIndistinguishable(lib: JwtLibrary, env: Option<string>, t1: string, t2: string)
    requires lib.verify(t1, Secret(env)).Rejected? && lib.verify(t2, Secret(env)).Rejected?
    ensures VerifyToken(lib, env, t1) == VerifyToken(lib, env, t2) == Err(InvalidToken)
  {
  }

  /**
   * Round trip: for a library that verifies what it signs, a token issued for
   * `u` verifies to the payload of `u`: same id, email, role and name.
   */
  lemma IssuedTokenVerifies(lib: JwtLibrary, env: Option<string>, u: UserView)
    requires SignVerifyLaw(lib)
    ensures VerifyToken(lib, env, GenerateToken(lib, env, u)) == Ok(JwtPayload(u))
  {
  }

  /**
   * `extractToken`: no header or an empty one gives no token; otherwise the
   * header is split on single spaces and accepted only as exactly two pieces
   * whose first is `Bearer`, case-sensitively.
   */
  function ExtractToken(authHeader: Option<string>): (t: Option<string>)
    ensures t.Some? ==> authHeader == Some(BearerPrefix + t.value) && ' ' !in t.value
  {
    if !Truthy(authHeader) then None
    else
      var parts := Text.Split(authHeader.value, ' ');
      if |parts| == 2 && parts[0] == Scheme then
        Text.JoinSplit(authHeader.value, ' ');
        Text.SplitShape(authHeader.value, ' ');
        assert parts[1..] == [parts[1]];
        assert authHeader.value == Scheme + [' '] + parts[1];
        Some(parts[1])
      else None
  }

  /**
   * Exact characterisation: a token `t` is extracted from `h` if and only if
   * `h` is `"Bearer " + t` and `t` has no space (the empty token included).
   */
  lemma ExtractTokenExact(h: Option<string>, t: string)
    ensures ExtractToken(h) == Some(t) <==> h == Some(BearerPrefix + t) && ' ' !in t
  {
    if h == Some(BearerPrefix + t) && ' ' !in t {
      assert ' ' !in Scheme;
      assert h.value == Scheme + [' '] + t;
      Text.SplitAfterPiece(Scheme, t, ' ');
      Text.SplitNoSeparator(t, ' ');
      assert Text.Split(h.value, ' ') == [Scheme, t];
    }
  }

  /** No header, or the empty header, yields no token. */
  lemma ExtractTokenAbsent()
    ensures ExtractToken(None) == None
    ensures ExtractToken(Some("")) == None
  {
  }

  /** `"Bearer "` followed by a space-free token gives that token back; `"Bearer "` alone gives `""`. */
  lemma ExtractTokenRoundTrip(t: string)
    requires ' ' !in t
    ensures ExtractToken(Some(BearerPrefix + t)) == Some(t)
    ensures ExtractToken(Some(BearerPrefix)) == Some("")
  {
    ExtractTokenExact(Some(BearerPrefix + t), t);
    assert BearerPrefix + [] == BearerPrefix;
    ExtractTokenExact(Some(BearerPrefix), "");
  }

  /** The scheme is matched case-sensitively: `bearer` and `BEARER` are refused. */
  lemma ExtractTokenCaseSensitive(t: string)
    ensures ExtractToken(Some("bearer " + t)) == None
    ensures ExtractToken(Some("BEARER " + t)) == None
  {
    assert "bearer " + t == "bearer" + [' '] + t;
    Text.SplitAfterPiece("bearer", t, ' ');
    assert "BEARER " + t == "BEARER" + [' '] + t;
    Text.SplitAfterPiece("BEARER", t, ' ');
  }

  /**
   * A header whose space count is not exactly one is refused, whatever its
   * scheme: `"Bearer  x"` (two spaces) and `"Bearer a b"` give no token.
   */
  lemma {:induction false} ExtractTokenOneSpaceOnly(h: string)
    ensures Text.Count(h, ' ') != 1 ==> ExtractToken(Some(h)) == None
    ensures ExtractToken(Some("Bearer  x")) == None
    ensures ExtractToken(Some("Bearer a b")) == None
  {
    Text.SplitShape(h, ' ');
    Text.SplitShape("Bearer  x", ' ');
    Text.SplitShape("Bearer a b", ' ');
  }
}

=== FILE: outcomes.dfy ===
/**
 * Values shared by every service of the inventory API: optional values, the
 * success/failure result that stands for a thrown `Error`, and the fixed set of
 * error messages the services throw.
 */
module Outcomes {

  datatype Option<+T> = None | Some(value: T)

  /** `Err` stands for a rejected promise / thrown `Error` of the services. */
  datatype Result<+T> = Ok(value: T) | Err(error: Error)

  /** Every error a service or helper of the core throws, one constructor per message. */
  datatype Error =
    | InvalidToken        // jwt.ts
    | EmailTaken          // auth.service.ts
    | InvalidCredentials  // auth.service.ts
    | AccountDisabled     // auth.service.ts
    | UserNotFound        // auth.service.ts
    | SerialTaken         // equipment.service.ts
    | EquipmentNotFound   // equipment.service.ts

  /** The exact message text each error carries. */
  function Message(e: Error): string
  {
    match e
    case InvalidToken => "Token inválido o expirado"
    case EmailTaken => "El email ya está registrado"
    case InvalidCredentials => "Credenciales inválidas"
    case AccountDisabled => "La cuenta está desactivada"
    case UserNotFound => "Usuario no encontrado"
    case SerialTaken => "El número de serie ya está registrado"
    case EquipmentNotFound => "Equipo no encontrado"
  }

  /**
   * JavaScript truthiness of an optional string: `undefined` and `""` are falsy.
   * The services and helpers test optional inputs with `if (x)`.
   */
  predicate Truthy(s: Option<string>)
  {
    s.Some? && s.value != ""
  }
}

=== FILE: text.dfy ===
/**
 * JavaScript's `String.prototype.split` with a one-character separator, and
 * its inverse `Array.prototype.join`. `s.split(c)` cuts `s` at every
 * occurrence of `c`; empty pieces are kept, so `"a  b".split(' ')` is
 * `["a", "", "b"]` and `"".split(' ')` is `[""]`.
 */
module Text {

  /** Number of occurrences of `c` in `s`. */
  function Count(s: string, c: char): nat
  {
    if s == [] then 0 else (if s[0] == c then 1 else 0) + Count(s[1..], c)
  }

  function Split(s: string, sep: char): (parts: seq<string>)
    ensures |parts| >= 1
  {
    if s == [] then [""]
    else
      var rest := Split(s[1..], sep);
      if s[0] == sep then [""] + rest
      else [[s[0]] + rest[0]] + rest[1..]
  }

  /** `parts.join(sep)`. */
  function Join(parts: seq<string>, sep: char): string
    requires |parts| >= 1
  {
    if |parts| == 1 then parts[0] else parts[0] + [sep] + Join(parts[1..], sep)
  }

  /** The pieces never contain the separator, and there is one more piece than separators. */
  lemma {:induction false} SplitShape(s: string, sep: char)
    ensures |Split(s, sep)| == Count(s, sep) + 1
    ensures forall i :: 0 <= i < |Split(s, sep)| ==> sep !in Split(s, sep)[i]
  {
    if s != [] {
      SplitShape(s[1..], sep);
    }
  }

  /** Joining the pieces back with the separator gives the original string. */
  lemma {:induction false} JoinSplit(s: string, sep: char)
    ensures Join(Split(s, sep), sep) == s
  {
    if s != [] {
      var rest := Split(s[1..], sep);
      JoinSplit(s[1..], sep);
      if s[0] == sep {
        assert Split(s, sep)[1..] == rest;
      } else {
        var parts := Split(s, sep);
        assert parts[1..] == rest[1..];
        if |rest| > 1 {
          calc {
            Join(parts, sep);
            [s[0]] + rest[0] + [sep] + Join(rest[1..], sep);
            [s[0]] + Join(rest, sep);
            s;
          }
        }
      }
    }
  }

  /** Splitting a join of separator-free pieces gives the pieces back. */
  lemma {:induction false} SplitJoin(parts: seq<string>, sep: char)
    requires |parts| >= 1
    requires forall i :: 0 <= i < |parts| ==> sep !in parts[i]
    ensures Split(Join(parts, sep), sep) == parts
  {
    if |parts| == 1 {
      SplitNoSeparator(parts[0], sep);
    } else {
      SplitJoin(parts[1..], sep);
      SplitAfterPiece(parts[0], Join(parts[1..], sep), sep);
      assert [parts[0]] + parts[1..] == parts;
    }
  }

  /** A string without the separator is a single piece. */
  lemma {:induction false} SplitNoSeparator(s: string, sep: char)
    requires sep !in s
    ensures Split(s, sep) == [s]
  {
    if s != [] {
      SplitNoSeparator(s[1..], sep);
      assert [s[0]] + s[1..] == s;
    }
  }

  /** A separator-free prefix followed by the separator becomes the first piece. */
  lemma {:induction false} SplitAfterPiece(a: string, b: string, sep: char)
    requires sep !in a
    ensures Split(a + [sep] + b, sep) == [a] + Split(b, sep)
  {
    if a == [] {
      assert a + [sep] + b == [sep] + b;
      assert ([sep] + b)[1..] == b;
    } else {
      SplitAfterPiece(a[1..], b, sep);
      assert (a + [sep] + b)[1..] == a[1..] + [sep] + b;
      assert [a[0]] + a[1..] == a;
    }
  }
}

=== FILE: user_types.dfy ===
/**
 * The user-facing shapes shared by the token helper and the authentication
 * service: the role enumeration and the public user view (`IUserResponse`),
 * which by construction has no password field.
 */
module UserTypes {

  datatype Role = Admin | User

  /** The public view of a user: `_id, name, email, role, isActive, createdAt` and nothing else. */
  datatype UserView = UserView(
    id: string,
    name: string,
    email: string,
    role: Role,
    isActive: bool,
    createdAt: nat)
}
